=== FILE: README.md ===
# Custom-size variants and their cleanup, modelled in Dafny

The service creates "custom size" variants on a Shopify store and later bulk-deletes them. This project models its deterministic core and proves properties about it.

- **Request handler** (`server.js`, `POST /create-custom-variant`). It checks the configuration, then the request's required fields. It reads the product's options and builds `option1..3` around a generated label `title - dddd`. It creates the variant and answers with its GID, its SKU and the `selectedOptions`.
- **Cleanup** (`cleanup.js`). It walks all products with cursor pagination, then all variants of each product. It sends a delete for every variant whose title matches ` - \d{4}$`. Each readable response falls into one of five outcomes, and no outcome stops the loop.
- **Dry run** (`cleanuptest.js`). It makes one unpaginated query and logs the variants the same pattern matches. It sends no mutation.

The network, the clock and the environment are inputs. The store's replies are values:

- a page walk reads a finite sequence of replies, one per request;
- a delete's reply is a function of the variant id;
- each of the handler's two calls has a reply given as an input.

Every function returns what the source logs or answers. The handler and a successful pagination walk also return the requests they issued (a failed walk returns only its error), so properties like "no remote call on rejection" and "which cursor each request carries" can be stated.

Modules and files:

| file | module | models |
|---|---|---|
| `wrappers.dfy` | `Wrappers` | `Option`, `Result` |
| `text.dfy` | `Text` | ASCII digits, `n.toString()`, `slice(-k)`, prefixes |
| `js_values.dfy` | `JsValues` | JSON values, truthiness, template-literal interpolation |
| `title_suffix.dfy` | `TitleSuffix` | the ` - \d{4}$` test, a reference regex engine, the generated label |
| `pagination.dfy` | `Pagination` | `fetchAllProductIDs` / `fetchAllVariants` |
| `variant_delete.dfy` | `VariantDelete` | delete-response classification |
| `cleanup.dfy` | `Cleanup` | `cleanupVariants` of `cleanup.js` |
| `cleanup_report.dfy` | `CleanupReport` | `cleanupVariants` of `cleanuptest.js` |
| `custom_variant.dfy` | `CustomVariant` | the `server.js` handler |

Behaviour of the code that is easy to miss, and which the model keeps:

- **Empty page that claims more pages.** The cleanup code does not stop on such a page. Reading the cursor of its missing last edge throws, and the whole cleanup ends in the outer catch (`FetchError.NoLastEdge`).
- **Falsy cursor.** `while (cursor)` ends the walk on any falsy cursor. A page that says more pages follow but whose last edge has an empty or missing cursor therefore ends the walk successfully.
- **Variant walk failure.** If one product's variant walk fails, the cleanup aborts. The deletes for earlier products have already been sent by then.
- **Unreadable delete replies.** Two delete replies throw outside the inner `try` and so end the whole cleanup: a `null` response body (reading `body.errors` throws) and a payload without `userErrors` (reading its `length` throws). Every other reply is logged and the loop goes on.
- **Title default.** The `title` default applies only to `undefined`. A `null` title makes the label `null - dddd`.
- **Two clock readings.** The label and the SKU read the clock separately, so they are two independent inputs.

## Model

| member | source | states |
|---|---|---|
| `TitleSuffix.HasDateSuffix` | cleanup.js:86 | The ` - \d{4}$` test on a title. Its meaning is stated by `RegexAgreesWithPredicate` (agreement with a regex engine on every title) and `SplitLabel`. |
| `TitleSuffix.RegexAgreesWithPredicate` | cleanup.js:86 | For every title, a left-to-right regex engine run on ` - \d{4}$` (space, hyphen, space, four `\d`, end of input) succeeds exactly when `HasDateSuffix` holds. |
| `TitleSuffix.MatchHereDateSuffix` | cleanuptest.js:48 | The pattern matches at position i exactly when i is 7 characters before the end and the title carries the suffix. No other start position can match. |
| `TitleSuffix.SearchFromDateSuffix` | cleanup.js:86 | Searching from a start position succeeds exactly when the suffix exists and begins at or after that position. |
| `TitleSuffix.CustomLabel` | server.js:54 | The generated label `${title} - ${last four digits of the clock}`. `LabelMatchesIff` and `SplitCustomLabel` state when it matches the cleanup pattern and what splitting it gives back. |
| `TitleSuffix.LabelMatchesIff` | server.js:54 | For any title, the generated label `title - last4(clock)` matches the cleanup pattern exactly when the clock reading has at least four digits (>= 1000). |
| `TitleSuffix.SplitLabel` | server.js:54 | A matching title is its human part, " - ", and four ASCII digits. |
| `TitleSuffix.SplitCustomLabel` | server.js:54 | Splitting a generated label gives back the title and the last four digits of the clock reading. |
| `TitleSuffix.MatchedTitleIsLabel` | cleanup.js:86 | A title matches exactly when it has the label shape: some text, " - ", four ASCII digits (both directions). |
| `Text.Decimal` | server.js:54-55 | `Date.now().toString()` is a non-empty string of ASCII digits with no leading zero. |
| `Text.ParseDecimalInverts` | server.js:55 | Reading the numeral back recovers the clock reading. |
| `Text.DecimalLength` | server.js:54 | For k >= 1, the numeral has more than k digits exactly when n >= 10^k. So `slice(-4)` takes four digits exactly when the reading is at least 1000. |
| `Text.SliceLast` | server.js:54 | For k >= 1, `slice(-k)` returns min(k, length) characters, and they are the string's suffix. |
| `Text.StripPrefix` | server.js:53 | Stripping succeeds exactly when the string starts with the prefix, and what remains, re-prefixed, is the string. |
| `Pagination.FetchAll` | cleanup.js:16-42 | The product walk `fetchAllProductIDs`, from no cursor. Its results are stated by `FetchAllSpec`, `FetchFailsAtBreak` and `EmptyPageWithNextFails`. |
| `Pagination.FetchAllSpec` | cleanup.js:16-42 | The walk succeeds exactly when some page n ends it. It then returns every edge's node of pages 0..n, in page order and edge order. It issues exactly n+1 requests of size 250 (`RequestsBetween`): the first without `after`, each later one with the previous page's last cursor. |
| `Pagination.FetchFrom` | cleanup.js:45-76 | One iteration of the `do … while (cursor)` loop and the rest of the walk, shared by the variant walk. Its results are stated by `FetchFromEndsAt` and `FetchFromSucceedsOnlyIfEnds`. |
| `Pagination.FetchFromEndsAt` | cleanup.js:45-76 | A walk entered at any page with the right cursor, and ending at page n, returns the nodes of the pages from there to n and issues exactly their requests. The variant walk runs the same loop as the product walk. |
| `Pagination.RequestsBetweenCons` | cleanup.js:36-39 | A page that continues the walk is followed by exactly one more request, which carries that page's last cursor. |
| `Pagination.FetchFromSucceedsOnlyIfEnds` | cleanup.js:20-39 | A walk that succeeds reached a stopping page: delivered, and either `hasNextPage` false or its last cursor falsy. |
| `Pagination.FetchFailsAtBreak` | cleanup.js:30-38 | A transport failure, a missing connection, or an empty page with `hasNextPage` true fails the whole walk, with that page's error. Nodes collected earlier are not returned. |
| `Pagination.EmptyPageWithNextFails` | cleanup.js:36-38 | An empty page claiming more pages fails with `NoLastEdge` instead of ending the walk. |
| `VariantDelete.Classify` | cleanup.js:98-136 | Each outcome holds exactly under its condition, in this priority: transport error, non-empty top-level `errors`, missing payload, non-empty `userErrors`, deleted. A `null` body or a payload without `userErrors` yields no outcome; it throws. Each outcome carries the reply's own data: the transport message, the `errors` list, the `userErrors` list or the deleted id. |
| `VariantDelete.TopLevelErrorsDominate` | cleanup.js:112-118 | Non-empty top-level errors decide the outcome whatever payload comes with them. An empty `errors` array counts as no errors. |
| `VariantDelete.DeletedMeansClean` | cleanup.js:129-136 | A "deleted" outcome implies no top-level errors, a payload, and an empty `userErrors`. It carries the payload's deleted id. |
| `Cleanup.Candidates` | cleanup.js:85-86 | A variant is selected exactly when it was fetched and its title matches. Nothing is selected from no variants, and from one variant exactly that variant is selected when it matches and nothing otherwise. With `CandidatesAppend` (selection distributes over concatenation) this fixes the result as the matching variants in their original order, each as often as it occurs. |
| `Cleanup.CandidatesAppend` | cleanup.js:83-86 | Selecting from two variant lists in turn gives the same variants, in the same order, as selecting from the two lists joined; so the matches of several products stay in product order then variant order. |
| `Cleanup.PlannedFollowsCandidates` | cleanup.js:85-100 | The planned deletes are one per matching variant, in order, each with its reply's classification. |
| `Cleanup.FirstUnreadable` | cleanup.js:129 | Every reply before the returned position is readable, and the reply at it (if any) is not. |
| `Cleanup.CutAtFirstUnreadable` | cleanup.js:105-136 | Carrying out a plan until a reply cannot be read sends exactly the planned deletes up to and including the first unreadable reply, then ends the run with that variant's id. A plan with no unreadable reply is sent whole and the run completes. |
| `Cleanup.CutCompletesIff` | cleanup.js:105-136 | A plan carried out this way completes exactly when none of its replies is unreadable. It then sends every planned delete. |
| `Cleanup.FirstUnfetched` | cleanup.js:83-84 | Every product before the returned position has a successful variant walk, and the one at it (if any) fails. |
| `Cleanup.CutAppendStopsEarly` | cleanup.js:129 | An unreadable reply ends the run where it occurs, whatever deletes would follow. |
| `Cleanup.CutAppendReadable` | cleanup.js:83-138 | A readable first part is carried out whole before the rest. |
| `Cleanup.DeleteEach` | cleanup.js:85-138 | The inner `for` loop over one product's variants. `DeleteEachIsCutPlan` states what it sends and when it stops. |
| `Cleanup.DeleteEachIsCutPlan` | cleanup.js:85-138 | The inner loop sends the planned deletes in variant order and stops only after an unreadable reply. Transport errors, GraphQL errors, unexpected shapes and user errors never stop it. |
| `Cleanup.CleanProducts` | cleanup.js:83-139 | The outer `for` loop over the product ids. `CleanProductsSpec` states its whole run. |
| `Cleanup.CleanProductsSpec` | cleanup.js:83-139 | The exact run over the product list. It is the plan for every variant seen, in product then variant order, cut at the first unreadable reply. If instead a product's variant walk fails, every earlier planned delete is sent and the run ends with that product's failure. |
| `Cleanup.CleanupVariants` | cleanup.js:78-145 | `cleanupVariants` of the cleanup script. `CleanupCompletes`, `ProductWalkFailureSendsNothing` and `AttemptsOnlyMatching` state its runs. |
| `Cleanup.AttemptsOnlyMatching` | cleanup.js:85-87 | Every delete the run sends targets a variant whose title matches the pattern. |
| `Cleanup.CleanupCompletes` | cleanup.js:78-141 | If the product walk ends at page n and nothing fails, the run completes. It sends exactly the planned deletes for the variants of the products on pages 0..n. |
| `Cleanup.ProductWalkFailureSendsNothing` | cleanup.js:81 | A product walk that does not end at any page aborts the cleanup before any delete is sent. |
| `CleanupReport.RunReport` | cleanuptest.js:18-58 | `cleanupVariants` of the dry-run script: one query, then the matches logged. `ReportMatchesSpec` and `DryRunAgreesWithCleanup` state what it logs. |
| `CleanupReport.ReportMatches` | cleanuptest.js:44-52 | The nested loop over products and variants. `ReportMatchesSpec` states its result. |
| `CleanupReport.ReportMatchesSpec` | cleanuptest.js:44-57 | The logged matches are the matching variants of the products before the first unreadable one, in product then variant order. The run fails exactly when some product's variants cannot be read. |
| `CleanupReport.FirstUnreadableProduct` | cleanuptest.js:45 | Products before the returned position have readable variants, and the one at it (if any) does not. |
| `CleanupReport.DryRunAgreesWithCleanup` | cleanuptest.js:44-50 | On the same variants, the dry run logs exactly the variants that a failure-free cleanup deletes, in the same order. |
| `CustomVariant.Handle` | server.js:39-172 | A missing shop or token gives 500 with no calls, whatever the body. The status is 400 exactly when the configuration is present and productId is falsy or price is null/undefined; no call is made then, and the answer is `{ error: "productId and price are required" }`. The first call reads `gid://shopify/Product/{productId}`. The status is 200 exactly when the product was read and the create reply has a truthy variant id. Success answers with `gid://shopify/ProductVariant/{id}`, `custom-{clock}` and the generated label. Two calls are made exactly when the product was read; the second is the create call for the request's product with the payload built from the product's options, and every answer with `selectedOptions` lists those options with the values sent. Once the required fields are present the read call is always made, and every status is 200, 400 or 500. A read that throws answers 500 with its message; a missing product answers 500 "Product could not be read."; a create that throws answers 500 with its message; a create reply without a truthy variant id answers 500 "Variant could not be created (REST).". |
| `CustomVariant.HandlerSendsOptionValues` | server.js:110-163 | Once the product is read, the create call targets the request's product id and carries the label as `option1`, the second and third options' values as `option2`/`option3` exactly when those options exist, the received price and the SKU. An answer with `selectedOptions` has one entry per product option: its name or "Option{i+1}", and the label for the first, that option's value for the others. |
| `CustomVariant.TitleText` | server.js:47 | The title the label is built from. `DefaultOnlyForUndefined` states when the default applies. |
| `CustomVariant.DefaultOnlyForUndefined` | server.js:47 | The title is "Custom Size" exactly when it was absent or given as that string. A `null` title prints as "null", and a string title is used as it is. |
| `CustomVariant.PriceZeroAccepted` | server.js:49 | A price of 0 passes the required-field test and the product is read. |
| `CustomVariant.FirstValueOr` | server.js:102-104 | The value for a later option is never falsy. It is the option's first value when the option exists, its `values` is a non-empty array and the first entry is truthy; in every other case it is "Default Title". |
| `CustomVariant.OptionValues` | server.js:94-108 | `optionVals` has max(1, number of options) entries. The first is the generated label; entry i >= 1 is option i's first value when it is truthy, else "Default Title". |
| `CustomVariant.Payload` | server.js:110-127 | The `variant` object of the create request. `PayloadOptions` states its fields and `HandlerSendsOptionValues` that the handler sends it. |
| `CustomVariant.PayloadOptions` | server.js:110-127 | `option1` is always the label. `option2` / `option3` are present exactly when the product has a second / third option, carrying that option's value. Later options are never sent. The price is passed through and the policy is "continue". |
| `CustomVariant.SelectedOptions` | server.js:146-149 | The `selectedOptions` list of an answer. `SelectedOptionsSpec` states its entries and `HandlerSendsOptionValues` that the handler answers with it. |
| `CustomVariant.SelectedOptionsSpec` | server.js:146-149 | There is one entry per product option. Each is named after the option, or "Option{i+1}" when the name is missing, and carries `optionVals[i]`. |
| `CustomVariant.GidRoundTrip` | server.js:153-154 | Both GIDs are their fixed prefixes followed by the interpolated id; stripping the prefix gives the id back. |
| `CustomVariant.SkuRoundTrip` | server.js:55 | The SKU is "custom-" followed by a numeral that reads back as the clock reading. |
| `CustomVariant.CreatedLabelIsCleanupTarget` | server.js:54 | When the product is read and the create reply has a truthy id, the variant is created, and its label matches the cleanup pattern exactly when the label's clock reading is >= 1000. Splitting it then gives back the request's title. |

## Left out

- Express routing, CORS and body-parser middleware, `app.listen` and `/health` are framework plumbing.
- HTTP requests, endpoints, headers and query text are not modelled. Each call is replaced by its reply as an input datatype.
- `Date.now()` is not modelled; its two readings are the `Clock` parameter.
- `process.env`/dotenv are not modelled; the two values are the `Env` parameter.
- `Number(price)` is a float conversion and is not modelled: the price is carried through unchanged.
- Console output is not modelled. What the scripts log (delete outcomes, matches) is returned as data instead.
- The string-spliced delete mutation text (`cleanup.js:91`) is not modelled, because it only builds the query text.
- The `debug` fields of the handler's error answers and the success answer's `message` field are omitted; statuses, errors, ids, SKU, option and `selectedOptions` are kept.
- `JsValues.IntString`: only safe integers are modelled. JavaScript prints integers of magnitude 1e21 or more in exponent form and rounds those above 2^53; the model prints every integer in plain decimal.
- Numbers are integers in `JsValue`. Fractional numbers and NaN are left out, and `Object` interpolates as a plain object (`[object Object]`); arrays are not modelled.
- Missing and null strings (names, option values, cursors) are modelled as the empty string, since every use in the source only tests them for truthiness.
- `Pagination.FetchAll`: `RemoteExhausted` is an artefact of giving the replies as a finite sequence. A real store always answers, so the error stands for a walk that asks past the modelled replies.
- `Pagination.Reply`: `Malformed` stands for every missing field of a page reply (`data`, `products`/`node.variants`, `edges`, `pageInfo`, an edge's `node`). All of them throw and fail the walk the same way.
- `Pagination.Request` has no `id` variable. The variant walk's requests also carry the product GID (`cleanup.js:62`); the model keys each product's variant replies by its id instead.
- `Cleanup.CleanProducts`: a delete reply is a function of the variant id, so the model does not describe a store that answers the same id differently on two requests.
- `CleanupReport.RunReport`: a null variant node is not modelled apart from an unreadable `edges` list.
- Price recomputation, metadata tagging and shipping-profile assignment are not in this code, so they are not modelled.

=== FILE: cleanup.dfy ===
/** `cleanupVariants` of the cleanup script: walk every product, walk every
    variant of each, and send a delete for each variant whose title carries
    the generated ` - dddd` suffix, classifying every response and going on
    to the next variant whatever the outcome. */
module Cleanup {
  import opened Wrappers
  import opened TitleSuffix
  import opened Pagination
  import opened VariantDelete

  /** `{ id, title }` as `fetchAllVariants` collects it. */
  datatype Variant = Variant(id: string, title: string)

  /** One delete request the run sent, with its classified outcome (None: the
      reply could not be read and the run ended there). */
  datatype Attempt = Attempt(variant: Variant, outcome: Option<Outcome>)

  /** Why a run ended in the outer catch block ("Cleanup failed"). */
  datatype Abort =
    | ProductsUnfetched(error: FetchError)
    | VariantsUnfetched(productId: string, error: FetchError)
    | ReplyUnreadable(variantId: string)

  /** A run: the delete requests in the order sent, and how it ended (None:
      "Variant cleanup complete"). */
  datatype Run = Run(attempts: seq<Attempt>, abort: Option<Abort>)

  /** The variants whose titles match ` - \d{4}$`, in their original order. */
  function Candidates(vs: seq<Variant>): (cs: seq<Variant>)
    ensures |cs| <= |vs|
    ensures forall v :: v in cs <==> v in vs && HasDateSuffix(v.title)
    ensures |vs| == 1 ==> |cs| == if HasDateSuffix(vs[0].title) then 1 else 0
  {
    if vs == [] then []
    else (if HasDateSuffix(vs[0].title) then [vs[0]] else []) + Candidates(vs[1..])
  }

  /** Filtering distributes over concatenation. */
  lemma {:induction false} CandidatesAppend(a: seq<Variant>, b: seq<Variant>)
    ensures Candidates(a + b) == Candidates(a) + Candidates(b)
    decreases |a|
  {
    if a == [] {
      assert a + b == b;
    } else {
      assert (a + b)[1..] == a[1..] + b;
      CandidatesAppend(a[1..], b);
    }
  }

  /** The deletes a loop over `vs` would send if it never stopped early: one
      per matching variant, in order, each with the outcome its reply
      classifies to. */
  function Planned(vs: seq<Variant>, respond: string -> DeleteReply): seq<Attempt> {
    if vs == [] then []
    else
      (if HasDateSuffix(vs[0].title) then [Attempt(vs[0], Classify(respond(vs[0].id)))] else [])
      + Planned(vs[1..], respond)
  }

  /** Every reply in the attempts was readable. */
  predicate Readable(attempts: seq<Attempt>) {
    forall i :: 0 <= i < |attempts| ==> attempts[i].outcome.Some?
  }

  /** The position of the first unreadable reply in a plan, or its length. */
  function FirstUnreadable(plan: seq<Attempt>): (k: nat)
    ensures k <= |plan|
    ensures forall i :: 0 <= i < k ==> plan[i].outcome.Some?
    ensures k < |plan| ==> plan[k].outcome.None?
  {
    if plan == [] then 0
    else if plan[0].outcome.None? then 0
    else 1 + FirstUnreadable(plan[1..])
  }

  /** A plan carried out until a reply cannot be read: each attempt is
      kept, and the first unreadable one ends the run. `CutAtFirstUnreadable`
      states it as the plan up to and including its first unreadable reply. */
  function Cut(plan: seq<Attempt>): Run
    decreases |plan|
  {
    if plan == [] then Run([], None)
    else if plan[0].outcome.None? then Run([plan[0]], Some(ReplyUnreadable(plan[0].variant.id)))
    else
      var rest := Cut(plan[1..]);
      Run([plan[0]] + rest.attempts, rest.abort)
  }

  /** The inner `for` loop over one product's variants: a delete for each
      matching variant, in order; a reply that cannot be read throws out of
      the loop. */
  function DeleteEach(vs: seq<Variant>, respond: string -> DeleteReply): Run
    decreases |vs|
  {
    if vs == [] then Run([], None)
    else
      var v := vs[0];
      if !HasDateSuffix(v.title) then DeleteEach(vs[1..], respond)
      else match Classify(respond(v.id))
        case None => Run([Attempt(v, None)], Some(ReplyUnreadable(v.id)))
        case Some(outcome) =>
          var rest := DeleteEach(vs[1..], respond);
          Run([Attempt(v, Some(outcome))] + rest.attempts, rest.abort)
  }

  /** The variants the run gets to see: those of each product in order, up
      to the first product whose variant walk fails. */
  function FetchedVariants(pids: seq<string>, variantPages: string -> seq<Reply<Variant>>): seq<Variant>
    decreases |pids|
  {
    if pids == [] then []
    else match FetchAll(variantPages(pids[0]))
      case Failure(_) => []
      case Success(walk) => walk.items + FetchedVariants(pids[1..], variantPages)
  }

  /** The position of the first product whose variant walk fails, or the
      number of products. */
  function FirstUnfetched(pids: seq<string>, variantPages: string -> seq<Reply<Variant>>): (k: nat)
    ensures k <= |pids|
    ensures forall j :: 0 <= j < k ==> FetchAll(variantPages(pids[j])).Success?
    ensures k < |pids| ==> FetchAll(variantPages(pids[k])).Failure?
  {
    if pids == [] then 0
    else if FetchAll(variantPages(pids[0])).Failure? then 0
    else
      var k := 1 + FirstUnfetched(pids[1..], variantPages);
      assert forall j :: 1 <= j < k ==> pids[j] == pids[1..][j - 1];
      k
  }

  /** The outer `for` loop over product ids. */
  function CleanProducts(pids: seq<string>, variantPages: string -> seq<Reply<Variant>>,
                         respond: string -> DeleteReply): Run
    decreases |pids|
  {
    if pids == [] then Run([], None)
    else match FetchAll(variantPages(pids[0]))
      case Failure(e) => Run([], Some(VariantsUnfetched(pids[0], e)))
      case Success(walk) =>
        var here := DeleteEach(walk.items, respond);
        if here.abort.Some? then here
        else
          var rest := CleanProducts(pids[1..], variantPages, respond);
          Run(here.attempts + rest.attempts, rest.abort)
  }

  lemma {:induction false} PlannedAppend(a: seq<Variant>, b: seq<Variant>, respond: string -> DeleteReply)
    ensures Planned(a + b, respond) == Planned(a, respond) + Planned(b, respond)
    decreases |a|
  {
    if a == [] {
      assert a + b == b;
    } else {
      var v := a[0];
      var head := if HasDateSuffix(v.title) then [Attempt(v, Classify(respond(v.id)))] else [];
      assert (a + b)[0] == v;
      assert (a + b)[1..] == a[1..] + b;
      assert Planned(a + b, respond) == head + Planned(a[1..] + b, respond);
      assert Planned(a, respond) == head + Planned(a[1..], respond);
      PlannedAppend(a[1..], b, respond);
    }
  }

  /** The plan sends exactly one delete per candidate, in the candidates'
      order, each with the outcome its reply classifies to. */
  lemma {:induction false} PlannedFollowsCandidates(vs: seq<Variant>, respond: string -> DeleteReply)
    ensures |Planned(vs, respond)| == |Candidates(vs)|
    ensures forall i :: 0 <= i < |Candidates(vs)| ==>
      Planned(vs, respond)[i] == Attempt(Candidates(vs)[i], Classify(respond(Candidates(vs)[i].id)))
    decreases |vs|
  {
    if vs != [] {
      var v := vs[0];
      var matched := if HasDateSuffix(v.title) then [v] else [];
      assert Candidates(vs) == matched + Candidates(vs[1..]);
      assert Planned(vs, respond) ==
        (if HasDateSuffix(v.title) then [Attempt(v, Classify(respond(v.id)))] else []) + Planned(vs[1..], respond);
      PlannedFollowsCandidates(vs[1..], respond);
    }
  }

  /** The run a cut plan makes is the plan up to and including its first
      unreadable reply, ending there; a plan with no unreadable reply is
      carried out whole and completes. */
  lemma {:induction false} CutAtFirstUnreadable(plan: seq<Attempt>)
    ensures var k := FirstUnreadable(plan);
      Cut(plan) == if k < |plan| then Run(plan[..k + 1], Some(ReplyUnreadable(plan[k].variant.id)))
                   else Run(plan, None)
    decreases |plan|
  {
    if plan != [] && plan[0].outcome.Some? {
      var rest := plan[1..];
      CutAtFirstUnreadable(rest);
      var k := FirstUnreadable(rest);
      assert FirstUnreadable(plan) == k + 1;
      if k < |rest| {
        assert plan[..k + 2] == [plan[0]] + rest[..k + 1];
      } else {
        assert plan == [plan[0]] + rest;
      }
    }
  }

  /** A cut plan completes exactly when none of its replies is unreadable,
      and then every planned delete is sent. */
  lemma {:induction false} CutCompletesIff(plan: seq<Attempt>)
    ensures Cut(plan).abort.None? <==> FirstUnreadable(plan) == |plan|
    ensures Cut(plan).abort.None? ==> Cut(plan).attempts == plan
    decreases |plan|
  {
    if plan != [] && plan[0].outcome.Some? {
      CutCompletesIff(plan[1..]);
    }
  }

  /** Cutting a plan with an unreadable reply in its first part ends the
      run there, whatever follows. */
  lemma {:induction false} CutAppendStopsEarly(p1: seq<Attempt>, p2: seq<Attempt>)
    requires FirstUnreadable(p1) < |p1|
    ensures Cut(p1 + p2) == Cut(p1)
    decreases |p1|
  {
    var p := p1 + p2;
    assert p[0] == p1[0];
    if p1[0].outcome.Some? {
      assert p[1..] == p1[1..] + p2;
      CutAppendStopsEarly(p1[1..], p2);
    }
  }

  /** Cutting a plan whose first part is readable carries that part out
      whole and goes on into the second. */
  lemma {:induction false} CutAppendReadable(p1: seq<Attempt>, p2: seq<Attempt>)
    requires FirstUnreadable(p1) == |p1|
    ensures Cut(p1 + p2) == Run(p1 + Cut(p2).attempts, Cut(p2).abort)
    decreases |p1|
  {
    if p1 == [] {
      assert p1 + p2 == p2;
    } else {
      var p := p1 + p2;
      assert p[0] == p1[0];
      assert p[1..] == p1[1..] + p2;
      CutAppendReadable(p1[1..], p2);
      assert [p1[0]] + (p1[1..] + Cut(p2).attempts) == p1 + Cut(p2).attempts;
    }
  }

  /** The inner loop is the plan for the product's variants, cut at its
      first unreadable reply: no transport error, GraphQL error, unexpected
      shape or user error stops it. */
  lemma {:induction false} DeleteEachIsCutPlan(vs: seq<Variant>, respond: string -> DeleteReply)
    ensures DeleteEach(vs, respond) == Cut(Planned(vs, respond))
    decreases |vs|
  {
    if vs != [] {
      var v := vs[0];
      var head := if HasDateSuffix(v.title) then [Attempt(v, Classify(respond(v.id)))] else [];
      assert Planned(vs, respond) == head + Planned(vs[1..], respond);
      DeleteEachIsCutPlan(vs[1..], respond);
      if head != [] && head[0].outcome.None? {
        assert FirstUnreadable(head) == 0;
        CutAppendStopsEarly(head, Planned(vs[1..], respond));
      } else {
        assert FirstUnreadable(head) == |head|;
        CutAppendReadable(head, Planned(vs[1..], respond));
      }
    }
  }

  /** The exact run over a list of products: the plan for every variant the
      run gets to see, cut at the first unreadable reply; when no reply is
      unreadable and some product's variant walk failed, every planned delete
      up to that product is sent and the run then ends with that failure. */
  lemma {:induction false} CleanProductsSpec(pids: seq<string>, variantPages: string -> seq<Reply<Variant>>,
                                             respond: string -> DeleteReply)
    ensures var plan := Planned(FetchedVariants(pids, variantPages), respond);
            var k := FirstUnfetched(pids, variantPages);
      CleanProducts(pids, variantPages, respond) ==
        if Cut(plan).abort.Some? || k == |pids| then Cut(plan)
        else Run(plan, Some(VariantsUnfetched(pids[k], FetchAll(variantPages(pids[k])).error)))
    decreases |pids|
  {
    if pids != [] {
      match FetchAll(variantPages(pids[0]))
      case Failure(e) =>
        assert FirstUnfetched(pids, variantPages) == 0;
      case Success(walk) =>
        var p1 := Planned(walk.items, respond);
        var p2 := Planned(FetchedVariants(pids[1..], variantPages), respond);
        PlannedAppend(walk.items, FetchedVariants(pids[1..], variantPages), respond);
        DeleteEachIsCutPlan(walk.items, respond);
        CutCompletesIff(p1);
        if FirstUnreadable(p1) < |p1| {
          CutAppendStopsEarly(p1, p2);
        } else {
          CutAppendReadable(p1, p2);
        }
        CleanProductsSpec(pids[1..], variantPages, respond);
        CutCompletesIff(p2);
        var k := FirstUnfetched(pids, variantPages);
        assert k == 1 + FirstUnfetched(pids[1..], variantPages);
        if k < |pids| {
          assert pids[k] == pids[1..][k - 1];
        }
    }
  }

  /** `cleanupVariants`: fetch all product ids, then clean each product. */
  function CleanupVariants(productPages: seq<Reply<string>>, variantPages: string -> seq<Reply<Variant>>,
                           respond: string -> DeleteReply): Run
  {
    match FetchAll(productPages)
    case Failure(e) => Run([], Some(ProductsUnfetched(e)))
    case Success(walk) => CleanProducts(walk.items, variantPages, respond)
  }

  /** A delete is only ever sent for a variant whose title matches the
      pattern. */
  lemma AttemptsOnlyMatching(productPages: seq<Reply<string>>, variantPages: string -> seq<Reply<Variant>>,
                             respond: string -> DeleteReply)
    ensures forall a :: a in CleanupVariants(productPages, variantPages, respond).attempts ==>
      HasDateSuffix(a.variant.title)
  {
    var run := CleanupVariants(productPages, variantPages, respond);
    match FetchAll(productPages)
    case Failure(_) =>
    case Success(walk) =>
      var seen := FetchedVariants(walk.items, variantPages);
      var plan := Planned(seen, respond);
      CleanProductsSpec(walk.items, variantPages, respond);
      PlannedFollowsCandidates(seen, respond);
      CutAtFirstUnreadable(plan);
      assert run.attempts <= plan;
      forall a | a in run.attempts
        ensures HasDateSuffix(a.variant.title)
      {
        var i :| 0 <= i < |run.attempts| && run.attempts[i] == a;
        assert a == plan[i];
        assert a.variant in Candidates(seen);
      }
  }

  /** The whole run when the product walk ends at page `n` and nothing fails:
      the products visited are those of pages 0..n, and exactly one delete is
      sent per matching variant, in product order then variant order, with
      the outcome its reply classifies to. */
  lemma CleanupCompletes(productPages: seq<Reply<string>>, n: nat,
                         variantPages: string -> seq<Reply<Variant>>, respond: string -> DeleteReply)
    requires EndsAt(productPages, n)
    requires FirstUnfetched(NodesBetween(productPages, 0, n), variantPages) == |NodesBetween(productPages, 0, n)|
    requires Readable(Planned(FetchedVariants(NodesBetween(productPages, 0, n), variantPages), respond))
    ensures CleanupVariants(productPages, variantPages, respond) ==
      Run(Planned(FetchedVariants(NodesBetween(productPages, 0, n), variantPages), respond), None)
  {
    FetchAllSpec(productPages);
    var pids := NodesBetween(productPages, 0, n);
    CleanProductsSpec(pids, variantPages, respond);
    var plan := Planned(FetchedVariants(pids, variantPages), respond);
    CutAtFirstUnreadable(plan);
  }

  /** A failed product walk ends the run before any delete is sent. */
  lemma ProductWalkFailureSendsNothing(productPages: seq<Reply<string>>,
                                       variantPages: string -> seq<Reply<Variant>>, respond: string -> DeleteReply)
    requires forall n: nat :: !EndsAt(productPages, n)
    ensures CleanupVariants(productPages, variantPages, respond).attempts == []
    ensures CleanupVariants(productPages, variantPages, respond).abort.Some?
    ensures CleanupVariants(productPages, variantPages, respond).abort.value.ProductsUnfetched?
  {
    FetchAllSpec(productPages);
  }
}

=== FILE: cleanup_report.dfy ===
/** The logging-only variant of `cleanupVariants`: one query for the first
    250 products with the first 250 variants of each, and a log line for
    every variant whose title matches ` - \d{4}$`. It sends no mutation:
    its only output is the list of matches it logs. */
module CleanupReport {
  import opened Wrappers
  import opened VariantDelete
  import opened Cleanup
  import Pagination

  /** One product node of the reply: its variants, or None when
      `product.variants.edges` cannot be read (reading it throws). */
  datatype ProductNode = ProductNode(variants: Option<seq<Variant>>)

  /** The single reply: a transport failure, a body without
      `data.products.edges`, or the product nodes in order. */
  datatype ReportReply = ReportNetworkError | ReportMalformed | ReportProducts(products: seq<ProductNode>)

  /** The variants logged as matches, in order, and whether the run ended in
      the outer catch ("Cleanup job failed"). */
  datatype Report = Report(matched: seq<Variant>, failed: bool)

  /** The nested `for` loops over products and their variants. */
  function ReportMatches(products: seq<ProductNode>): Report
    decreases |products|
  {
    if products == [] then Report([], false)
    else match products[0].variants
      case None => Report([], true)
      case Some(vs) =>
        var rest := ReportMatches(products[1..]);
        Report(Candidates(vs) + rest.matched, rest.failed)
  }

  /** `cleanupVariants` of the logging-only script. */
  function RunReport(reply: ReportReply): Report {
    match reply
    case ReportNetworkError => Report([], true)
    case ReportMalformed => Report([], true)
    case ReportProducts(products) => ReportMatches(products)
  }

  /** Every product's variants can be read. */
  predicate AllReadable(products: seq<ProductNode>) {
    forall i :: 0 <= i < |products| ==> products[i].variants.Some?
  }

  /** The variants of readable products, in product order then variant order. */
  function Flatten(products: seq<ProductNode>): seq<Variant>
    requires AllReadable(products)
  {
    if products == [] then [] else products[0].variants.value + Flatten(products[1..])
  }

  /** The position of the first product whose variants cannot be read, or
      the number of products. */
  function FirstUnreadableProduct(products: seq<ProductNode>): (k: nat)
    ensures k <= |products|
    ensures forall i :: 0 <= i < k ==> products[i].variants.Some?
    ensures k < |products| ==> products[k].variants.None?
  {
    if products == [] then 0
    else if products[0].variants.None? then 0
    else 1 + FirstUnreadableProduct(products[1..])
  }

  lemma {:induction false} FlattenPrefix(products: seq<ProductNode>, k: nat)
    requires 0 < k <= |products| && AllReadable(products[..k])
    ensures products[..k][1..] == products[1..][..k - 1]
    ensures Flatten(products[..k]) == products[0].variants.value + Flatten(products[1..][..k - 1])
  {
    assert products[..k][1..] == products[1..][..k - 1];
  }

  /** The report logs exactly the matching variants of the products before
      the first unreadable one, in product order then variant order, and it
      fails exactly when some product's variants cannot be read. */
  lemma {:induction false} ReportMatchesSpec(products: seq<ProductNode>)
    ensures var k := FirstUnreadableProduct(products);
      ReportMatches(products) == Report(Candidates(Flatten(products[..k])), k < |products|)
    decreases |products|
  {
    var k := FirstUnreadableProduct(products);
    if products == [] || products[0].variants.None? {
      assert k == 0 && products[..k] == [];
    } else {
      var vs := products[0].variants.value;
      var rest := products[1..];
      assert k == 1 + FirstUnreadableProduct(rest);
      ReportMatchesSpec(rest);
      FlattenPrefix(products, k);
      CandidatesAppend(vs, Flatten(rest[..k - 1]));
      assert ReportMatches(products) == Report(Candidates(vs) + ReportMatches(rest).matched, ReportMatches(rest).failed);
    }
  }

  /** On the same variants, the report lists exactly the variants a cleanup
      run that meets no failure sends deletes for, in the same order. */
  lemma DryRunAgreesWithCleanup(products: seq<ProductNode>, pids: seq<string>,
                                variantPages: string -> seq<Pagination.Reply<Variant>>,
                                respond: string -> DeleteReply)
    requires AllReadable(products)
    requires FetchedVariants(pids, variantPages) == Flatten(products)
    requires FirstUnfetched(pids, variantPages) == |pids|
    requires Readable(Planned(Flatten(products), respond))
    ensures !RunReport(ReportProducts(products)).failed
    ensures CleanProducts(pids, variantPages, respond).abort.None?
    ensures Variants(CleanProducts(pids, variantPages, respond).attempts) == RunReport(ReportProducts(products)).matched
  {
    var k := FirstUnreadableProduct(products);
    assert k == |products|;
    assert products[..k] == products;
    ReportMatchesSpec(products);
    assert RunReport(ReportProducts(products)) == Report(Candidates(Flatten(products)), false);
    var plan := Planned(Flatten(products), respond);
    CleanProductsSpec(pids, variantPages, respond);
    assert FirstUnreadable(plan) == |plan|;
    CutAtFirstUnreadable(plan);
    assert CleanProducts(pids, variantPages, respond) == Run(plan, None);
    PlannedFollowsCandidates(Flatten(products), respond);
  }

  /** The variants of a list of attempts, in order. */
  function Variants(attempts: seq<Attempt>): (vs: seq<Variant>)
    ensures |vs| == |attempts|
    ensures forall i :: 0 <= i < |attempts| ==> vs[i] == attempts[i].variant
  {
    seq(|attempts|, i requires 0 <= i < |attempts| => attempts[i].variant)
  }
}

=== FILE: custom_variant.dfy ===
/** The `POST /create-custom-variant` handler: check the configuration, check
    the request, read the product's options, build the new variant's option
    values around a generated label, create the variant, and answer with its
    id. The two remote calls are replaced by their replies, given as inputs,
    and the handler records which calls it made. */
module CustomVariant {
  import opened Wrappers
  import opened Text
  import opened JsValues
  import opened TitleSuffix

  /** The shop domain and the Admin API token read from the environment
      (None when the variable is unset). */
  datatype Env = Env(shop: Option<string>, accessToken: Option<string>)

  /** `assertEnv` passes: neither value is unset or empty. */
  predicate Configured(env: Env) {
    env.shop.Some? && env.shop.value != "" && env.accessToken.Some? && env.accessToken.value != ""
  }

  const EnvMissingMessage: string := "SHOPIFY_SHOP veya SHOPIFY_ADMIN_API_KEY çevre değişkeni eksik."
  const MissingFieldsMessage: string := "productId and price are required"
  const ProductUnreadableMessage: string := "Product could not be read."
  const VariantNotCreatedMessage: string := "Variant could not be created (REST)."

  /** The fields of the JSON request body the handler reads (Undefined when
      a field is absent). */
  datatype RequestBody = RequestBody(productId: JsValue, price: JsValue, title: JsValue)

  /** `!productId || price === undefined || price === null` is false: a
      price of 0 passes, a product id of 0 or "" does not. */
  predicate HasRequiredFields(body: RequestBody) {
    Truthy(body.productId) && !IsNullish(body.price)
  }

  const DefaultTitle: string := "Custom Size"

  /** `title = "Custom Size"` in the destructuring: the default replaces only
      `undefined`; any other value is interpolated as it is. */
  function TitleText(title: JsValue): string {
    if title.Undefined? then DefaultTitle else Interpolate(title)
  }

  /** The title is "Custom Size" exactly when it was absent or given as that
      very string: a null title, a number or a boolean is printed as it is,
      never replaced by the default. */
  lemma {:induction false} DefaultOnlyForUndefined(title: JsValue)
    ensures TitleText(title) == DefaultTitle <==> title.Undefined? || title == Str(DefaultTitle)
    ensures title.Null? ==> TitleText(title) == "null"
    ensures title.Str? ==> TitleText(title) == title.s
  {
    if title.Num? {
      var t := IntString(title.n);
      if title.n < 0 {
        assert t[0] == '-';
      } else {
        assert IsDigit(Decimal(title.n)[0]);
      }
      assert DefaultTitle[0] == 'C';
    }
  }

  /** The two readings of `Date.now()`, in milliseconds: one for the label,
      one for the SKU. */
  datatype Clock = Clock(labelStamp: nat, skuStamp: nat)

  const ProductGidPrefix: string := "gid://shopify/Product/"
  const VariantGidPrefix: string := "gid://shopify/ProductVariant/"
  const SkuPrefix: string := "custom-"

  function ProductGid(productId: JsValue): string {
    ProductGidPrefix + Interpolate(productId)
  }

  function VariantGid(variantId: JsValue): string {
    VariantGidPrefix + Interpolate(variantId)
  }

  /** `custom-${Date.now()}` */
  function Sku(stamp: nat): string {
    SkuPrefix + Decimal(stamp)
  }

  /** One option of the product as read back: its name ("" when missing or
      null) and its values (None when not an array; "" for a null entry). */
  datatype ProductOption = ProductOption(name: string, values: Option<seq<string>>)

  /** `data.product` of the options query; `options` is None when it is not
      an array, and a None entry is a null option. */
  datatype Product = Product(options: Option<seq<Option<ProductOption>>>)

  /** The options query: the HTTP client throws, or a body whose
      `data.product` may be missing. */
  datatype ReadReply = ReadThrew(message: string) | ReadBody(product: Option<Product>)

  /** The REST create call: the HTTP client throws, or a body whose
      `variant.id` is given (Undefined when the variant or its id is missing). */
  datatype CreateReply = CreateThrew(message: string) | CreateBody(variantId: JsValue)

  const DefaultOptionValue: string := "Default Title"

  /** The option is present, its `values` is an array, and the array's first
      entry is truthy. */
  predicate HasTruthyFirstValue(opt: Option<ProductOption>) {
    opt.Some? && opt.value.values.Some? && |opt.value.values.value| > 0 && opt.value.values.value[0] != ""
  }

  /** The value kept for an option after the first: its first value when it
      has one that is truthy, else "Default Title". */
  function FirstValueOr(opt: Option<ProductOption>): (v: string)
    ensures v != ""
    ensures HasTruthyFirstValue(opt) ==> v == opt.value.values.value[0]
    ensures !HasTruthyFirstValue(opt) ==> v == DefaultOptionValue
  {
    match opt
    case None => DefaultOptionValue
    case Some(o) =>
      if o.values.Some? && |o.values.value| > 0 && o.values.value[0] != "" then o.values.value[0]
      else DefaultOptionValue
  }

  /** `optionVals`: the generated label for the first option (or for the
      implicit Title option of a product without options), then each other
      option's first value. */
  function OptionValues(options: seq<Option<ProductOption>>, customValue: string): (vals: seq<string>)
    ensures |vals| == if |options| == 0 then 1 else |options|
    ensures vals[0] == customValue
    ensures forall i :: 1 <= i < |options| ==> vals[i] == FirstValueOr(options[i])
  {
    [customValue] + seq(if |options| == 0 then 0 else |options| - 1,
                        i requires 0 <= i < |options| - 1 => FirstValueOr(options[i + 1]))
  }

  /** The `variant` object of the REST create request. The price is carried
      as received; `option2`/`option3` are None when left out. */
  datatype VariantPayload = VariantPayload(
    price: JsValue, sku: string, option1: string, option2: Option<string>, option3: Option<string>,
    inventoryPolicy: string)

  /** `optionVals[i]` read as a conditional spread `...(v ? { v } : {})`:
      present only when the index exists and the value is truthy. */
  function OptionalAt(vals: seq<string>, i: nat): Option<string> {
    if i < |vals| && vals[i] != "" then Some(vals[i]) else None
  }

  /** `Array.isArray(product.options) ? product.options : []` */
  function OptionsOf(product: Product): seq<Option<ProductOption>> {
    if product.options.Some? then product.options.value else []
  }

  function Payload(price: JsValue, sku: string, vals: seq<string>, customValue: string): VariantPayload {
    var option1 := if |vals| > 0 && vals[0] != "" then vals[0] else customValue;
    VariantPayload(price, sku, option1, OptionalAt(vals, 1), OptionalAt(vals, 2), "continue")
  }

  /** The payload's options: the label is always `option1`; `option2` and
      `option3` are present exactly when the product has a second and a third
      option, carrying their first values; later options are never sent. */
  lemma PayloadOptions(options: seq<Option<ProductOption>>, customValue: string, price: JsValue, sku: string)
    ensures var p := Payload(price, sku, OptionValues(options, customValue), customValue);
      && p.option1 == customValue
      && p.option2 == (if |options| >= 2 then Some(FirstValueOr(options[1])) else None)
      && p.option3 == (if |options| >= 3 then Some(FirstValueOr(options[2])) else None)
      && p.price == price && p.sku == sku && p.inventoryPolicy == "continue"
  {
  }

  /** One entry of `selectedOptions` in a reply. */
  datatype SelectedOption = SelectedOption(name: string, value: string)

  /** `o?.name || \`Option${i + 1}\`` */
  function OptionName(opt: Option<ProductOption>, i: nat): string {
    if opt.Some? && opt.value.name != "" then opt.value.name else "Option" + Decimal(i + 1)
  }

  /** `options.map((o, i) => ({ name, value: optionVals[i] }))` */
  function SelectedOptions(options: seq<Option<ProductOption>>, vals: seq<string>): seq<SelectedOption>
    requires |options| <= |vals|
  {
    seq(|options|, i requires 0 <= i < |options| => SelectedOption(OptionName(options[i], i), vals[i]))
  }

  /** One entry per product option, in order, named after the option or
      "Option{i+1}" when it has no name; the first carries the generated
      label and every later one that option's first value. */
  lemma SelectedOptionsSpec(options: seq<Option<ProductOption>>, customValue: string)
    ensures var sel := SelectedOptions(options, OptionValues(options, customValue));
      && |sel| == |options|
      && (|options| > 0 ==> sel[0].value == customValue)
      && (forall i :: 1 <= i < |options| ==> sel[i].value == FirstValueOr(options[i]))
      && (forall i :: 0 <= i < |options| ==>
            sel[i].name == if options[i].Some? && options[i].value.name != "" then options[i].value.name
                           else "Option" + Decimal(i + 1))
  {
  }

  /** A call the handler makes to the store. */
  datatype Call = ReadOptions(productGid: string) | CreateVariant(productId: string, payload: VariantPayload)

  /** The handler's JSON answer. */
  datatype Response =
    | Failed(status: nat, error: string)
    | VariantNotCreated(error: string, selected: seq<SelectedOption>)
    | Created(variantId: string, sku: string, option: string, selected: seq<SelectedOption>)

  function Status(r: Response): nat {
    match r
    case Failed(status, _) => status
    case VariantNotCreated(_, _) => 500
    case Created(_, _, _, _) => 200
  }

  /** The answer together with the calls made to the store, in order. */
  datatype Handled = Handled(response: Response, calls: seq<Call>)

  /** The request handler. */
  function Handle(env: Env, body: RequestBody, clock: Clock, read: ReadReply, create: CreateReply): (h: Handled)
    ensures !Configured(env) ==> h == Handled(Failed(500, EnvMissingMessage), [])
    ensures Status(h.response) == 400 <==> Configured(env) && !HasRequiredFields(body)
    ensures Status(h.response) == 400 ==> h.calls == []
    ensures Status(h.response) == 400 ==> h.response == Failed(400, MissingFieldsMessage)
    ensures h.calls != [] ==> h.calls[0] == ReadOptions(ProductGid(body.productId))
    ensures |h.calls| <= 2
    ensures Configured(env) && HasRequiredFields(body) ==> h.calls != []
    ensures Status(h.response) == 200 || Status(h.response) == 400 || Status(h.response) == 500
    ensures Status(h.response) == 200 <==>
      && Configured(env) && HasRequiredFields(body)
      && read.ReadBody? && read.product.Some?
      && create.CreateBody? && Truthy(create.variantId)
    ensures h.response.Created? ==>
      && h.response.variantId == VariantGid(create.variantId)
      && h.response.sku == Sku(clock.skuStamp)
      && h.response.option == CustomLabel(TitleText(body.title), clock.labelStamp)
    ensures |h.calls| == 2 <==> Configured(env) && HasRequiredFields(body) && read.ReadBody? && read.product.Some?
    ensures |h.calls| == 2 ==>
      var customValue := CustomLabel(TitleText(body.title), clock.labelStamp);
      var options := OptionsOf(read.product.value);
      var vals := OptionValues(options, customValue);
      && h.calls[1] == CreateVariant(Interpolate(body.productId), Payload(body.price, Sku(clock.skuStamp), vals, customValue))
      && (h.response.Created? || h.response.VariantNotCreated? ==> h.response.selected == SelectedOptions(options, vals))
    ensures Configured(env) && HasRequiredFields(body) && read.ReadThrew? ==> h.response == Failed(500, read.message)
    ensures Configured(env) && HasRequiredFields(body) && read == ReadBody(None) ==>
      h.response == Failed(500, ProductUnreadableMessage)
    ensures |h.calls| == 2 && create.CreateThrew? ==> h.response == Failed(500, create.message)
    ensures |h.calls| == 2 && create.CreateBody? && !Truthy(create.variantId) ==>
      h.response.VariantNotCreated? && h.response.error == VariantNotCreatedMessage
  {
    if !Configured(env) then Handled(Failed(500, EnvMissingMessage), [])
    else if !HasRequiredFields(body) then Handled(Failed(400, MissingFieldsMessage), [])
    else
      var readCall := ReadOptions(ProductGid(body.productId));
      var customValue := CustomLabel(TitleText(body.title), clock.labelStamp);
      var sku := Sku(clock.skuStamp);
      match read
      case ReadThrew(message) => Handled(Failed(500, message), [readCall])
      case ReadBody(None) => Handled(Failed(500, ProductUnreadableMessage), [readCall])
      case ReadBody(Some(product)) =>
        var options := if product.options.Some? then product.options.value else [];
        var vals := OptionValues(options, customValue);
        var calls := [readCall, CreateVariant(Interpolate(body.productId), Payload(body.price, sku, vals, customValue))];
        var selected := SelectedOptions(options, vals);
        match create
        case CreateThrew(message) => Handled(Failed(500, message), calls)
        case CreateBody(variantId) =>
          if !Truthy(variantId) then Handled(VariantNotCreated(VariantNotCreatedMessage, selected), calls)
          else Handled(Created(VariantGid(variantId), sku, customValue, selected), calls)
  }

  /** Once the product is read, the create call targets the request's
      product and carries the label as `option1`, the second and third
      options' first values (or "Default Title") as `option2`/`option3` when
      those options exist, the received price and the SKU; any answer with
      `selectedOptions` lists every product option with the value sent for it. */
  lemma HandlerSendsOptionValues(env: Env, body: RequestBody, clock: Clock, read: ReadReply, create: CreateReply)
    requires Configured(env) && HasRequiredFields(body) && read.ReadBody? && read.product.Some?
    ensures var h := Handle(env, body, clock, read, create);
      var customValue := CustomLabel(TitleText(body.title), clock.labelStamp);
      var options := OptionsOf(read.product.value);
      && h.calls[1].CreateVariant?
      && h.calls[1].productId == Interpolate(body.productId)
      && h.calls[1].payload.option1 == customValue
      && h.calls[1].payload.option2 == (if |options| >= 2 then Some(FirstValueOr(options[1])) else None)
      && h.calls[1].payload.option3 == (if |options| >= 3 then Some(FirstValueOr(options[2])) else None)
      && h.calls[1].payload.price == body.price
      && h.calls[1].payload.sku == Sku(clock.skuStamp)
      && (h.response.Created? || h.response.VariantNotCreated? ==>
            && |h.response.selected| == |options|
            && forall i :: 0 <= i < |options| ==>
                 h.response.selected[i] == SelectedOption(OptionName(options[i], i),
                                                          if i == 0 then customValue else FirstValueOr(options[i])))
  {
    var customValue := CustomLabel(TitleText(body.title), clock.labelStamp);
    var options := OptionsOf(read.product.value);
    PayloadOptions(options, customValue, body.price, Sku(clock.skuStamp));
    SelectedOptionsSpec(options, customValue);
  }

  /** A price of 0 is accepted: the request goes on to read the product. */
  lemma PriceZeroAccepted(env: Env, productId: JsValue, title: JsValue, clock: Clock, read: ReadReply, create: CreateReply)
    requires Configured(env) && Truthy(productId)
    ensures var h := Handle(env, RequestBody(productId, Num(0), title), clock, read, create);
      Status(h.response) != 400 && h.calls != []
  {
  }

  /** Stripping the prefixes recovers the interpolated ids. */
  lemma GidRoundTrip(productId: JsValue, variantId: JsValue)
    ensures StripPrefix(ProductGidPrefix, ProductGid(productId)) == Some(Interpolate(productId))
    ensures StripPrefix(VariantGidPrefix, VariantGid(variantId)) == Some(Interpolate(variantId))
  {
    StripPrefixOfPrefixed(ProductGidPrefix, Interpolate(productId));
    StripPrefixOfPrefixed(VariantGidPrefix, Interpolate(variantId));
  }

  /** The SKU is "custom-" followed by a numeral that reads back as the clock
      reading it was made from. */
  lemma SkuRoundTrip(stamp: nat)
    ensures StripPrefix(SkuPrefix, Sku(stamp)) == Some(Decimal(stamp))
    ensures ParseDecimal(Decimal(stamp)) == stamp
  {
    StripPrefixOfPrefixed(SkuPrefix, Decimal(stamp));
    ParseDecimalInverts(stamp);
  }

  /** The label of a created variant matches the cleanup scripts' pattern
      exactly when the clock reading has four digits or more, and splitting
      it then recovers the title the request gave. */
  lemma CreatedLabelIsCleanupTarget(env: Env, body: RequestBody, clock: Clock, read: ReadReply, create: CreateReply)
    requires Configured(env) && HasRequiredFields(body) && read.ReadBody? && read.product.Some?
    requires create.CreateBody? && Truthy(create.variantId)
    ensures Handle(env, body, clock, read, create).response.Created?
    ensures var option := Handle(env, body, clock, read, create).response.option;
      && (HasDateSuffix(option) <==> clock.labelStamp >= 1000)
      && (clock.labelStamp >= 1000 ==> SplitLabel(option).0 == TitleText(body.title))
  {
    LabelMatchesIff(TitleText(body.title), clock.labelStamp);
    if clock.labelStamp >= 1000 {
      SplitCustomLabel(TitleText(body.title), clock.labelStamp);
    }
  }
}

=== FILE: js_values.dfy ===
/** The JavaScript value semantics the request handler depends on: which
    values are falsy, and what a template literal `${v}` prints. */
module JsValues {
  import opened Text

  /** A value read from a JSON request or reply body. Numbers are integers in
      this model; `Object` stands for any plain object. */
  datatype JsValue = Undefined | Null | Bool(b: bool) | Num(n: int) | Str(s: string) | Object

  /** JavaScript truthiness: `undefined`, `null`, `false`, `0` and `""` are
      the falsy values among those modelled. */
  predicate Truthy(v: JsValue) {
    match v
    case Undefined => false
    case Null => false
    case Bool(b) => b
    case Num(n) => n != 0
    case Str(s) => s != ""
    case Object => true
  }

  /** `v === undefined || v === null` */
  predicate IsNullish(v: JsValue) {
    v.Undefined? || v.Null?
  }

  /** `String(i)` for an integer. */
  function IntString(i: int): string {
    if i < 0 then "-" + Decimal(-i) else Decimal(i)
  }

  /** The text a template literal `${v}` inserts for `v`. */
  function Interpolate(v: JsValue): string {
    match v
    case Undefined => "undefined"
    case Null => "null"
    case Bool(b) => if b then "true" else "false"
    case Num(n) => IntString(n)
    case Str(s) => s
    case Object => "[object Object]"
  }
}

=== FILE: pagination.dfy ===
/** The cursor pagination loop of `fetchAllProductIDs` and `fetchAllVariants`:
    request a page of at most 250 edges, collect every edge's node, and, while
    the page says more follow, ask again after the cursor of its last edge.

    The remote is a finite sequence of replies, answered in order: the k-th
    request the loop issues receives `replies[k]`. */
module Pagination {
  import opened Wrappers

  /** `first: 250` in both page queries. */
  const PageSize: nat := 250

  /** One edge of a connection. A missing or null cursor is the empty string:
      all three are falsy to the loop. */
  datatype Edge<T> = Edge(cursor: string, node: T)

  datatype Page<T> = Page(edges: seq<Edge<T>>, hasNextPage: bool)

  /** What one page request yields: a readable page; a body without the
      expected connection (`data.products`, `data.node.variants`, or their
      `edges`/`pageInfo`), whose reading throws; or a transport failure
      thrown by the HTTP client. */
  datatype Reply<T> = Delivered(page: Page<T>) | Malformed | NetworkFailure

  /** A page request: its page size and the `after` variable, absent on the
      first request. */
  datatype Request = Request(first: nat, after: Option<string>)

  /** Why a walk failed. `NoLastEdge` is the TypeError of reading the cursor
      of the last edge of an empty page that claims more pages follow.
      `RemoteExhausted` means the modelled replies ran out before the walk
      ended; a real remote always answers. */
  datatype FetchError = Network | MissingConnection | NoLastEdge | RemoteExhausted

  /** What a completed walk returns (its items) and the requests it issued. */
  datatype Walk<T> = Walk(items: seq<T>, requests: seq<Request>)

  function Nodes<T>(edges: seq<Edge<T>>): (nodes: seq<T>)
    ensures |nodes| == |edges|
    ensures forall i :: 0 <= i < |edges| ==> nodes[i] == edges[i].node
  {
    if edges == [] then [] else [edges[0].node] + Nodes(edges[1..])
  }

  /** The value the loop variable `cursor` takes after a page: the last
      edge's cursor when more pages follow, else null (the empty string). */
  function NextCursor<T>(page: Page<T>): Result<string, FetchError> {
    if !page.hasNextPage then Success("")
    else if |page.edges| == 0 then Failure(NoLastEdge)
    else Success(page.edges[|page.edges| - 1].cursor)
  }

  /** The loop from its k-th iteration on, with `cursor` holding the value
      the previous iteration left (the empty string before the first). */
  function FetchFrom<T>(replies: seq<Reply<T>>, k: nat, cursor: string): Result<Walk<T>, FetchError>
    decreases |replies| - k
  {
    var request := Request(PageSize, if cursor == "" then None else Some(cursor));
    if k >= |replies| then Failure(RemoteExhausted)
    else match replies[k]
      case NetworkFailure => Failure(Network)
      case Malformed => Failure(MissingConnection)
      case Delivered(page) =>
        match NextCursor(page)
        case Failure(e) => Failure(e)
        case Success(next) =>
          if next == "" then Success(Walk(Nodes(page.edges), [request]))
          else match FetchFrom(replies, k + 1, next)
            case Failure(e) => Failure(e)
            case Success(rest) => Success(Walk(Nodes(page.edges) + rest.items, [request] + rest.requests))
  }

  /** `fetchAllProductIDs` / `fetchAllVariants`: the whole loop. */
  function FetchAll<T>(replies: seq<Reply<T>>): Result<Walk<T>, FetchError> {
    FetchFrom(replies, 0, "")
  }

  // Reference description of a walk, stated page by page.

  function LastCursor<T>(page: Page<T>): string
    requires |page.edges| > 0
  {
    page.edges[|page.edges| - 1].cursor
  }

  /** Page k lets the walk go on: it was delivered, says more pages follow,
      and its last edge names a cursor. */
  predicate Continues<T>(replies: seq<Reply<T>>, k: nat) {
    && k < |replies|
    && replies[k].Delivered?
    && replies[k].page.hasNextPage
    && |replies[k].page.edges| > 0
    && LastCursor(replies[k].page) != ""
  }

  /** Page k ends the walk: it was delivered, and either says no page
      follows or its last edge names no cursor. */
  predicate Stops<T>(replies: seq<Reply<T>>, k: nat) {
    && k < |replies|
    && replies[k].Delivered?
    && (!replies[k].page.hasNextPage
        || (|replies[k].page.edges| > 0 && LastCursor(replies[k].page) == ""))
  }

  /** Starting at page `from`, the walk passes every page before `n` and
      ends at page `n`. */
  predicate EndsAtFrom<T>(replies: seq<Reply<T>>, from: nat, n: nat) {
    && from <= n
    && Stops(replies, n)
    && forall k :: from <= k < n ==> Continues(replies, k)
  }

  predicate EndsAt<T>(replies: seq<Reply<T>>, n: nat) {
    EndsAtFrom(replies, 0, n)
  }

  /** The nodes of pages `from` to `n` inclusive, in page order and edge order. */
  function NodesBetween<T>(replies: seq<Reply<T>>, from: nat, n: nat): seq<T>
    requires EndsAtFrom(replies, from, n)
    decreases n - from
  {
    assert from == n || Continues(replies, from);
    Nodes(replies[from].page.edges) + (if from == n then [] else NodesBetween(replies, from + 1, n))
  }

  /** The request the walk issues for page `k`, given that the pages before
      it continued: no cursor for the first, the previous page's last cursor
      after that. */
  function RequestFor<T>(replies: seq<Reply<T>>, k: nat): Request
    requires k == 0 || Continues(replies, k - 1)
  {
    if k == 0 then Request(PageSize, None)
    else Request(PageSize, Some(LastCursor(replies[k - 1].page)))
  }

  /** The cursor the loop holds on entering iteration k of a walk whose
      earlier pages continued. */
  function CursorBefore<T>(replies: seq<Reply<T>>, k: nat): string
    requires k == 0 || Continues(replies, k - 1)
  {
    if k == 0 then "" else LastCursor(replies[k - 1].page)
  }

  /** The requests of a walk from page `from` to page `n`: one per page, the
      request for page `j` at position `j - from`. */
  function RequestsBetween<T>(replies: seq<Reply<T>>, from: nat, n: nat): (rs: seq<Request>)
    requires EndsAtFrom(replies, from, n)
    requires from == 0 || Continues(replies, from - 1)
  {
    seq(n + 1 - from, i requires 0 <= i < n + 1 - from =>
      assert i == 0 || Continues(replies, from + i - 1);
      RequestFor(replies, from + i))
  }

  lemma RequestsBetweenCons<T>(replies: seq<Reply<T>>, from: nat, n: nat)
    requires EndsAtFrom(replies, from, n)
    requires from == 0 || Continues(replies, from - 1)
    requires from < n
    ensures Continues(replies, from)
    ensures RequestsBetween(replies, from, n) == [RequestFor(replies, from)] + RequestsBetween(replies, from + 1, n)
  {
    assert Continues(replies, from);
  }

  /** A walk entered at page `from` with the right cursor and ending at page
      `n` returns the nodes of pages `from..n` and issues the requests of
      those pages. */
  lemma {:induction false} FetchFromEndsAt<T>(replies: seq<Reply<T>>, from: nat, n: nat)
    requires EndsAtFrom(replies, from, n)
    requires from == 0 || Continues(replies, from - 1)
    ensures FetchFrom(replies, from, CursorBefore(replies, from))
      == Success(Walk(NodesBetween(replies, from, n), RequestsBetween(replies, from, n)))
    decreases n - from
  {
    var cursor := CursorBefore(replies, from);
    assert from == n || Continues(replies, from);
    var page := replies[from].page;
    var request := Request(PageSize, if cursor == "" then None else Some(cursor));
    assert request == RequestFor(replies, from);
    assert replies[from] == Delivered(page);
    if from == n {
      assert NextCursor(page) == Success("");
      assert FetchFrom(replies, from, cursor) == Success(Walk(Nodes(page.edges), [request]));
      assert NodesBetween(replies, from, n) == Nodes(page.edges);
      assert RequestsBetween(replies, from, n) == [request];
    } else {
      var next := LastCursor(page);
      assert NextCursor(page) == Success(next) && next != "";
      assert CursorBefore(replies, from + 1) == next;
      FetchFromEndsAt(replies, from + 1, n);
      var items := NodesBetween(replies, from + 1, n);
      var requests := RequestsBetween(replies, from + 1, n);
      assert FetchFrom(replies, from + 1, next) == Success(Walk(items, requests));
      assert FetchFrom(replies, from, cursor) == Success(Walk(Nodes(page.edges) + items, [request] + requests));
      assert NodesBetween(replies, from, n) == Nodes(page.edges) + items;
      RequestsBetweenCons(replies, from, n);
    }
  }

  /** A walk entered at page `from` succeeds only if it ends at some page. */
  lemma {:induction false} FetchFromSucceedsOnlyIfEnds<T>(replies: seq<Reply<T>>, from: nat, cursor: string)
    requires FetchFrom(replies, from, cursor).Success?
    ensures exists n: nat :: EndsAtFrom(replies, from, n)
    decreases |replies| - from
  {
    assert from < |replies| && replies[from].Delivered?;
    var page := replies[from].page;
    if Stops(replies, from) {
      assert EndsAtFrom(replies, from, from);
    } else {
      var next := LastCursor(page);
      FetchFromSucceedsOnlyIfEnds(replies, from + 1, next);
      var n: nat :| EndsAtFrom(replies, from + 1, n);
      assert EndsAtFrom(replies, from, n);
    }
  }

  /** The pagination contract. The walk succeeds exactly when some page `n`
      ends it; it then returns the nodes of pages 0..n, in page order and
      edge order, after exactly one request per page (`RequestsBetween`):
      the first without a cursor, each later one with the last cursor of the
      page before. */
  lemma FetchAllSpec<T>(replies: seq<Reply<T>>)
    ensures FetchAll(replies).Success? <==> exists n: nat :: EndsAt(replies, n)
    ensures forall n: nat :: EndsAt(replies, n) ==>
      FetchAll(replies) == Success(Walk(NodesBetween(replies, 0, n), RequestsBetween(replies, 0, n)))
  {
    if FetchAll(replies).Success? {
      FetchFromSucceedsOnlyIfEnds(replies, 0, "");
      var n: nat :| EndsAtFrom(replies, 0, n);
      assert EndsAt(replies, n);
    }
    forall n: nat | EndsAt(replies, n)
      ensures FetchAll(replies) == Success(Walk(NodesBetween(replies, 0, n), RequestsBetween(replies, 0, n)))
    {
      FetchFromEndsAt(replies, 0, n);
    }
  }

  /** The error a walk reports when page `k` neither continues nor stops it. */
  function BreakError<T>(replies: seq<Reply<T>>, k: nat): FetchError {
    if k >= |replies| then RemoteExhausted
    else match replies[k]
      case NetworkFailure => Network
      case Malformed => MissingConnection
      case Delivered(_) => NoLastEdge
  }

  /** When every page before `k` continues the walk and page `k` neither
      continues nor stops it, the whole walk fails with that page's error and
      the nodes already collected are lost: a transport failure, a missing
      connection, or an empty page claiming more pages follow. */
  lemma {:induction false} FetchFailsAtBreak<T>(replies: seq<Reply<T>>, from: nat, k: nat)
    requires from <= k
    requires forall j :: from <= j < k ==> Continues(replies, j)
    requires !Continues(replies, k) && !Stops(replies, k)
    requires from == 0 || Continues(replies, from - 1)
    ensures FetchFrom(replies, from, CursorBefore(replies, from)) == Failure(BreakError(replies, k))
    decreases k - from
  {
    if from < k {
      assert Continues(replies, from);
      FetchFailsAtBreak(replies, from + 1, k);
    }
  }

  /** An empty page that claims more pages follow fails the walk rather than
      ending it. */
  lemma EmptyPageWithNextFails<T>(replies: seq<Reply<T>>, k: nat)
    requires forall j :: 0 <= j < k ==> Continues(replies, j)
    requires k < |replies| && replies[k] == Delivered(Page([], true))
    ensures FetchAll(replies) == Failure(NoLastEdge)
  {
    FetchFailsAtBreak(replies, 0, k);
  }
}

=== FILE: text.dfy ===
/** String facts the handlers rely on: ASCII digits, the decimal form of a
    non-negative integer (`n.toString()`), `String.prototype.slice` with a
    negative start, and prefixing. */
module Text {
  import opened Wrappers

  /** `\d` of a JavaScript regular expression without the `u` flag: ASCII 0-9. */
  predicate IsDigit(c: char) {
    '0' <= c <= '9'
  }

  predicate AllDigits(s: string) {
    forall i :: 0 <= i < |s| ==> IsDigit(s[i])
  }

  function DigitChar(d: nat): (c: char)
    requires d < 10
    ensures IsDigit(c)
    ensures c as int - '0' as int == d
  {
    ('0' as int + d) as char
  }

  function DigitValue(c: char): (d: nat)
    requires IsDigit(c)
    ensures d < 10
    ensures DigitChar(d) == c
  {
    c as int - '0' as int
  }

  function Pow10(k: nat): (p: nat)
    ensures p >= 1
  {
    if k == 0 then 1 else 10 * Pow10(k - 1)
  }

  /** `n.toString()` for a non-negative integer: the shortest decimal numeral,
      never empty, and without a leading zero unless it is "0" itself. */
  function Decimal(n: nat): (s: string)
    ensures 1 <= |s| && AllDigits(s)
    ensures |s| > 1 ==> s[0] != '0'
    decreases n
  {
    if n < 10 then [DigitChar(n)] else Decimal(n / 10) + [DigitChar(n % 10)]
  }

  /** Reads a numeral back as a number; the empty string reads as 0. */
  function ParseDecimal(s: string): nat
    requires AllDigits(s)
    decreases |s|
  {
    if s == [] then 0 else 10 * ParseDecimal(s[..|s| - 1]) + DigitValue(s[|s| - 1])
  }

  /** Reading a numeral back recovers the number it was printed from. */
  lemma {:induction false} ParseDecimalInverts(n: nat)
    ensures ParseDecimal(Decimal(n)) == n
    decreases n
  {
    if n >= 10 {
      var s := Decimal(n);
      assert s[..|s| - 1] == Decimal(n / 10);
      ParseDecimalInverts(n / 10);
      assert DigitValue(s[|s| - 1]) == n % 10;
    }
  }

  /** For `k >= 1`, the numeral of `n` has more than `k` digits exactly when
      `n >= 10^k` ("0" has one digit although 0 < 10^0). */
  lemma {:induction false} DecimalLength(n: nat, k: nat)
    requires k >= 1
    ensures |Decimal(n)| > k <==> n >= Pow10(k)
    decreases n
  {
    if n < 10 {
      assert |Decimal(n)| == 1;
      Pow10Grows(k);
    } else if k > 1 {
      DecimalLength(n / 10, k - 1);
      assert n / 10 >= Pow10(k - 1) <==> n >= 10 * Pow10(k - 1);
    }
  }

  lemma {:induction false} Pow10Grows(k: nat)
    requires k > 0
    ensures Pow10(k) >= 10
  {
    if k > 1 {
      Pow10Grows(k - 1);
    }
  }

  /** `s.slice(-k)` for a positive `k`: the last `k` characters of `s`, or
      all of `s` when it is shorter than that. (`slice(-0)` is `slice(0)`,
      the whole string, so `k` = 0 is excluded.) */
  function SliceLast(s: string, k: nat): (r: string)
    requires k > 0
    ensures |r| == if |s| < k then |s| else k
    ensures s == s[..|s| - |r|] + r
  {
    if |s| < k then s else s[|s| - k..]
  }

  predicate StartsWith(s: string, prefix: string) {
    |prefix| <= |s| && s[..|prefix|] == prefix
  }

  /** The inverse of prefixing: `s` without `prefix`, when it starts with it. */
  function StripPrefix(prefix: string, s: string): (r: Option<string>)
    ensures r.Some? <==> StartsWith(s, prefix)
    ensures r.Some? ==> s == prefix + r.value
  {
    if StartsWith(s, prefix) then Some(s[|prefix|..]) else None
  }

  /** Stripping a prefix undoes prepending it. */
  lemma StripPrefixOfPrefixed(prefix: string, rest: string)
    ensures StripPrefix(prefix, prefix + rest) == Some(rest)
  {
    assert (prefix + rest)[..|prefix|] == prefix;
    assert (prefix + rest)[|prefix|..] == rest;
  }
}

=== FILE: title_suffix.dfy ===
/** The title pattern ` - \d{4}$` that both cleanup scripts test variant titles
    against, and the option label the request handler generates, which that
    pattern is meant to recognise. */
module TitleSuffix {
  import opened Text

  /** The separator between a human title and its four-digit disambiguator. */
  const Separator: string := " - "

  /** `/ - \d{4}$/.test(title)`: the title ends in a space, a hyphen, a space
      and exactly four ASCII digits. With no `m` flag, `$` matches only at the
      very end of the string. */
  predicate HasDateSuffix(title: string) {
    && |title| >= 7
    && title[|title| - 7..|title| - 4] == Separator
    && AllDigits(title[|title| - 4..])
  }

  // A reference for the predicate above: a tiny backtracking-free regular
  // expression engine for patterns made of literal characters, `\d` and `$`,
  // which tries every start position from left to right as `RegExp.test` does.

  datatype Atom = Literal(c: char) | AnyDigit | EndOfInput

  /** The pattern ` - \d{4}$`, with `\d{4}` spelt out as four `\d` atoms. */
  const DateSuffixPattern: seq<Atom> :=
    [Literal(' '), Literal('-'), Literal(' '), AnyDigit, AnyDigit, AnyDigit, AnyDigit, EndOfInput]

  /** The pattern matches `s` starting at position `i`. */
  predicate MatchHere(p: seq<Atom>, s: string, i: nat)
    decreases |p|
  {
    if p == [] then true
    else match p[0]
      case Literal(c) => i < |s| && s[i] == c && MatchHere(p[1..], s, i + 1)
      case AnyDigit => i < |s| && IsDigit(s[i]) && MatchHere(p[1..], s, i + 1)
      case EndOfInput => i == |s| && MatchHere(p[1..], s, i)
  }

  /** The pattern matches `s` at some start position `start` or later. */
  predicate SearchFrom(p: seq<Atom>, s: string, start: nat)
    decreases |s| + 1 - start
  {
    if start > |s| then false else MatchHere(p, s, start) || SearchFrom(p, s, start + 1)
  }

  /** The engine finds ` - \d{4}$` at position `i` exactly when the title
      carries the suffix and `i` is where its separator begins. */
  lemma MatchHereDateSuffix(s: string, i: nat)
    ensures MatchHere(DateSuffixPattern, s, i) <==> (i + 7 == |s| && HasDateSuffix(s))
  {
    var p := DateSuffixPattern;
    assert p[1..] == [Literal('-'), Literal(' '), AnyDigit, AnyDigit, AnyDigit, AnyDigit, EndOfInput];
    assert p[1..][1..] == [Literal(' '), AnyDigit, AnyDigit, AnyDigit, AnyDigit, EndOfInput];
    assert p[1..][1..][1..] == [AnyDigit, AnyDigit, AnyDigit, AnyDigit, EndOfInput];
    assert p[1..][1..][1..][1..] == [AnyDigit, AnyDigit, AnyDigit, EndOfInput];
    assert p[1..][1..][1..][1..][1..] == [AnyDigit, AnyDigit, EndOfInput];
    assert p[1..][1..][1..][1..][1..][1..] == [AnyDigit, EndOfInput];
    assert p[1..][1..][1..][1..][1..][1..][1..] == [EndOfInput];
    assert p[1..][1..][1..][1..][1..][1..][1..][1..] == [];
    if i + 7 == |s| {
      var digits := s[|s| - 4..];
      assert AllDigits(digits) <==> IsDigit(s[i + 3]) && IsDigit(s[i + 4]) && IsDigit(s[i + 5]) && IsDigit(s[i + 6]) by {
        assert digits == [s[i + 3], s[i + 4], s[i + 5], s[i + 6]];
      }
      assert s[|s| - 7..|s| - 4] == [s[i], s[i + 1], s[i + 2]];
    }
  }

  /** Searching from `start` succeeds exactly when the suffix exists and its
      separator does not begin before `start`. */
  lemma {:induction false} SearchFromDateSuffix(s: string, start: nat)
    ensures SearchFrom(DateSuffixPattern, s, start) <==> (start + 7 <= |s| && HasDateSuffix(s))
    decreases |s| + 1 - start
  {
    if start <= |s| {
      MatchHereDateSuffix(s, start);
      SearchFromDateSuffix(s, start + 1);
    }
  }

  /** `RegExp.prototype.test` as the reference engine runs it agrees with the
      predicate on every title. */
  lemma RegexAgreesWithPredicate(title: string)
    ensures SearchFrom(DateSuffixPattern, title, 0) <==> HasDateSuffix(title)
  {
    SearchFromDateSuffix(title, 0);
  }

  /** The option label of the request handler:
      `${title} - ${Date.now().toString().slice(-4)}`, where `stamp` is the
      clock reading in milliseconds. */
  function CustomLabel(title: string, stamp: nat): string {
    title + Separator + SliceLast(Decimal(stamp), 4)
  }

  /** Splits a title at its suffix: the human title and the four digits. */
  function SplitLabel(tag: string): (parts: (string, string))
    requires HasDateSuffix(tag)
    ensures tag == parts.0 + Separator + parts.1
    ensures |parts.1| == 4 && AllDigits(parts.1)
  {
    (tag[..|tag| - 7], tag[|tag| - 4..])
  }

  /** A generated label carries the suffix exactly when the clock reading has
      at least four digits, whatever the human title is; every real clock
      reading since 1970 does. */
  lemma {:induction false} LabelMatchesIff(title: string, stamp: nat)
    ensures HasDateSuffix(CustomLabel(title, stamp)) <==> stamp >= 1000
  {
    var digits := SliceLast(Decimal(stamp), 4);
    var tag := CustomLabel(title, stamp);
    DecimalLength(stamp, 3);
    var n := |tag|;
    if stamp >= 1000 {
      assert tag[n - 7..n - 4] == Separator;
      assert tag[n - 4..] == digits;
      assert AllDigits(digits) by {
        forall i | 0 <= i < |digits|
          ensures IsDigit(digits[i])
        {
          assert digits[i] == Decimal(stamp)[|Decimal(stamp)| - 4 + i];
        }
      }
    } else {
      // The label ends with ` - ` followed by one to three digits, so one of
      // the last four characters is part of the separator, not a digit.
      var k := |digits|;
      assert 1 <= k <= 3;
      assert tag[n - k - 1] == ' ';
      assert n - k - 1 >= n - 4;
      if n >= 7 {
        assert tag[n - 4..][4 - k - 1] == ' ';
      }
    }
  }

  /** Splitting a generated label recovers the human title and the last four
      digits of the clock reading. */
  lemma SplitCustomLabel(title: string, stamp: nat)
    requires stamp >= 1000
    ensures HasDateSuffix(CustomLabel(title, stamp))
    ensures SplitLabel(CustomLabel(title, stamp)) == (title, SliceLast(Decimal(stamp), 4))
  {
    LabelMatchesIff(title, stamp);
    var tag := CustomLabel(title, stamp);
    DecimalLength(stamp, 3);
    assert tag[..|tag| - 7] == title;
  }

  /** The pattern matches exactly the titles of label shape: some human text,
      the separator and four ASCII digits. */
  lemma MatchedTitleIsLabel(title: string)
    ensures HasDateSuffix(title) <==> exists human: string, digits: string ::
      |digits| == 4 && AllDigits(digits) && title == human + Separator + digits
  {
    if HasDateSuffix(title) {
      var parts := SplitLabel(title);
      assert title == parts.0 + Separator + parts.1;
    }
    if exists human: string, digits: string ::
      |digits| == 4 && AllDigits(digits) && title == human + Separator + digits
    {
      var human: string, digits: string :|
        |digits| == 4 && AllDigits(digits) && title == human + Separator + digits;
      var n := |title|;
      assert title[n - 7..n - 4] == Separator;
      assert title[n - 4..] == digits;
    }
  }
}

=== FILE: variant_delete.dfy ===
/** Classification of one `productVariantDelete` call's response, as the
    cleanup loop reads it: transport error, then top-level GraphQL errors,
    then a missing mutation payload, then user errors, otherwise deleted. */
module VariantDelete {
  import opened Wrappers

  /** One entry of the payload's `userErrors { field message }`. */
  datatype UserError = UserError(field: seq<string>, message: string)

  /** `data.productVariantDelete` when it is present. `userErrors` is None
      when that field is absent or null. */
  datatype DeletePayload = DeletePayload(deletedProductVariantId: Option<string>, userErrors: Option<seq<UserError>>)

  /** What the delete request yields: the HTTP client throws (network
      failure, error status), the response body is JSON `null`, or a body
      with optional top-level `errors` and an optional mutation payload
      (absent when `data` or `data.productVariantDelete` is missing or
      null). */
  datatype DeleteReply =
    | NetworkError(message: string)
    | NullBody
    | Body(errors: Option<seq<string>>, payload: Option<DeletePayload>)

  /** The five outcomes the loop logs. */
  datatype Outcome =
    | TransportError(message: string)
    | GraphQLErrors(errors: seq<string>)
    | UnexpectedShape
    | UserErrors(userErrors: seq<UserError>)
    | Deleted(deletedId: Option<string>)

  /** `body.errors?.length` is truthy. */
  predicate HasTopLevelErrors(reply: DeleteReply) {
    reply.Body? && reply.errors.Some? && |reply.errors.value| > 0
  }

  /** The reply reaches the `userErrors` check: a body without top-level
      errors whose payload is present. */
  predicate ReachesPayload(reply: DeleteReply) {
    reply.Body? && !HasTopLevelErrors(reply) && reply.payload.Some?
  }

  /** The outcome of one delete, or None when the reply cannot be read:
      `body.errors` on a null body, or `userErrors.length` on a payload
      without `userErrors`, throws a TypeError that the loop's inner handler
      does not catch. */
  function Classify(reply: DeleteReply): (r: Option<Outcome>)
    ensures r.Some? && r.value.TransportError? <==> reply.NetworkError?
    ensures r.Some? && r.value.GraphQLErrors? <==> HasTopLevelErrors(reply)
    ensures r.Some? && r.value.UnexpectedShape? <==> reply.Body? && !HasTopLevelErrors(reply) && reply.payload.None?
    ensures r.None? <==> reply.NullBody? || (ReachesPayload(reply) && reply.payload.value.userErrors.None?)
    ensures r.Some? && r.value.UserErrors? <==>
      ReachesPayload(reply) && reply.payload.value.userErrors.Some? && |reply.payload.value.userErrors.value| > 0
    ensures r.Some? && r.value.Deleted? <==> ReachesPayload(reply) && reply.payload.value.userErrors == Some([])
    ensures r.Some? && r.value.TransportError? ==> r.value.message == reply.message
    ensures r.Some? && r.value.GraphQLErrors? ==> r.value.errors == reply.errors.value
    ensures r.Some? && r.value.UserErrors? ==> r.value.userErrors == reply.payload.value.userErrors.value
    ensures r.Some? && r.value.Deleted? ==> r.value.deletedId == reply.payload.value.deletedProductVariantId
  {
    match reply
    case NetworkError(message) => Some(TransportError(message))
    case NullBody => None
    case Body(errors, payload) =>
      if errors.Some? && |errors.value| > 0 then Some(GraphQLErrors(errors.value))
      else match payload
        case None => Some(UnexpectedShape)
        case Some(result) =>
          match result.userErrors
          case None => None
          case Some(userErrors) =>
            if |userErrors| > 0 then Some(UserErrors(userErrors))
            else Some(Deleted(result.deletedProductVariantId))
  }

  /** Top-level errors take priority over whatever payload accompanies them,
      and an empty `errors` array counts as no errors at all. */
  lemma TopLevelErrorsDominate(errors: seq<string>, p1: Option<DeletePayload>, p2: Option<DeletePayload>)
    ensures |errors| > 0 ==> Classify(Body(Some(errors), p1)) == Classify(Body(Some(errors), p2)) == Some(GraphQLErrors(errors))
    ensures Classify(Body(Some([]), p1)) == Classify(Body(None, p1))
  {
  }

  /** A reported deletion carries exactly the id the payload named, and no
      error of any kind accompanied it. */
  lemma DeletedMeansClean(reply: DeleteReply)
    requires Classify(reply).Some? && Classify(reply).value.Deleted?
    ensures reply.Body? && (reply.errors.None? || reply.errors == Some([]))
    ensures reply.payload.Some? && reply.payload.value.userErrors == Some([])
    ensures Classify(reply).value.deletedId == reply.payload.value.deletedProductVariantId
  {
  }
}

=== FILE: wrappers.dfy ===
/** Optional and fallible values shared by every module of the model. */
module Wrappers {

  /** A value that may be absent: JavaScript's `undefined`/`null` for a field. */
  datatype Option<+T> = None | Some(value: T)

  /** The outcome of a step that either yields a value or fails with an error. */
  datatype Result<+T, +E> = Success(value: T) | Failure(error: E)
}
